=== FILE: README.md ===
# Trix.db `Database` core, modelled in Dafny

Trix.db is an embedded key–value store for Node.js. One `Database` instance
holds two independent maps:

- **The document** (`this.data`). This is a map from string keys to JSON values. Every successful
  mutation hands the whole document to `saveData`, which tries to write it to the backing file.
  In the default encrypted mode that write never succeeds (see "## Left out").
- **The TTL cache** (`this.cache`). This maps keys to `{ value, expireAt }` records. A timer
  sweeps it every second and evicts the records whose expiry time has passed. While the
  cache is enabled, the whole-store reads `fetch`, `fetchAll` and `all` return the cache
  records instead of the document.

The model is a state record `Database.Db` with pure transition functions.
`writes` in that record is the sequence of documents that `saveData` was asked to write,
oldest first. Its last element is the last document handed to `saveData`
(`Database.LastSaved`). It records what `saveData` was given, not what the file holds:
in encrypted mode no save puts the document on disk (see "## Left out").
So "a save happened" reads `SavedOnce(before, after)`, and "no save happened" reads
`NotSaved(before, after)`.

Files:

- `json.dfy` (module `Json`): the `Value` union
  (`Null | Bool | Num(int) | Str | Arr | Obj`), `Document` and `Option`.
  `None` stands for JavaScript's `undefined`.
- `ttl_cache.dfy` (module `TtlCache`): cache entries, the expiry test, the reference
  definition `Expire` of a sweep, and the sweep loop `SweepExpired`. It also has the
  `{ value, expireAt }` wrapper that reads hand out.
- `database.dfy` (module `Database`): the instance state and every operation of the class.
- `properties.dfy` (module `Properties`): lemmas that relate operations. It also holds
  frame invariants, and the invariant that the last document handed to `saveData` is the in-memory one, over arbitrary operation sequences, and the worked
  scenarios.

The clock is a parameter: `now` is passed to `SetCacheWithTTL` and `CheckCacheExpiration`.
Reading, decrypting and parsing the backing file is also a parameter: `Load` takes an
`Option<Document>` parse outcome. Floating-point division is a parameter too:
`divide: (int, int) -> int`.

The cache is swept only on timer ticks, never on a read. Between two ticks a read can still
show an entry whose expiry time has passed. The model keeps this: `Fetch` shows the cache as
it stands, and `ExpiredEntryNotRead` is stated for the cache after a sweep.

## Model

| member | source | states |
|---|---|---|
| TtlCache.Expire | index.js:24-33 | a sweep keeps a key exactly when its entry is not expired, and keeps that entry unchanged |
| TtlCache.SweepExpired | index.js:26-32 | the key-by-key deleting loop leaves exactly the cache of the reference definition `Expire` |
| TtlCache.ExpireIdempotent | index.js:24-33 | a second sweep at the same time evicts nothing more |
| TtlCache.ExpireLater | index.js:24-33 | a sweep at an earlier time followed by one at a later time equals one sweep at the later time |
| TtlCache.Wrap | index.js:37 | the record a read shows for an entry has only the fields `value` and `expireAt`; it carries the entry's value, and carries its stamp exactly when one is set |
| TtlCache.UnwrapWrap | index.js:37 | reading a wrapped record back gives the original entry |
| TtlCache.View | index.js:232-238 | the cache as read has the cache's keys and holds exactly each entry's wrapped record, which reads back to that entry |
| Database.Save | index.js:41-50 | a save appends the current document to the write log, so the last document handed to `saveData` is the current one; the cache is untouched |
| Database.Load | index.js:52-62 | a parsed file replaces the document; a failed read, decrypt or parse leaves it unchanged; loading never saves |
| Database.New | index.js:6-13 | a new instance holds the loaded document, or the empty one when loading fails; the cache is empty and disabled; nothing has been written |
| Database.EnableEncryption | index.js:135-139 | the cipher flag is set and the document is reloaded under it, with the failure case unchanged; no save happens |
| Database.DisableEncryption | index.js:141-145 | the cipher flag is cleared and the document is reloaded under it, with the failure case unchanged; no save happens |
| Database.Get | index.js:85-87 | a value is returned exactly when the key is present, and it is the stored value; an absent key gives `undefined` |
| Database.Has | index.js:94-96 | `has` is true exactly when `get` finds a value |
| Database.Set | index.js:80-83 | afterwards `get` returns the new value and `has` is true, every other key reads as before, one save happens and the last document handed to `saveData` is the new document |
| Database.Delete | index.js:89-92 | afterwards `has` is false and every other key reads as before; an absent key leaves the document unchanged; one save happens in every case |
| Database.Add | index.js:98-103 | a number `x` becomes `x + n` with one save and other keys unchanged; an absent or non-number value leaves the whole state unchanged, with no save |
| Database.Subtract | index.js:105-110 | a number `x` becomes `x - n` with one save and other keys unchanged; an absent or non-number value leaves the whole state unchanged, with no save |
| Database.Math | index.js:120-133 | on a number `x` the operators `+`, `-`, `*` and `/` give `x+n`, `x-n`, `x*n` and `divide(x, n)`; any other operator keeps `x`; a save happens in all these cases; an absent or non-number value leaves the whole state unchanged, with no save |
| Database.Push | index.js:112-118 | an array gets the item appended; any other prior value, or none, is replaced by exactly `[item]`; other keys are unchanged and one save always happens |
| Database.Reset | index.js:262-265 | afterwards `has` is false for every key and the last document handed to `saveData` is the empty document; the cache is untouched |
| Database.SetCacheWithTTL | index.js:35-39 | the key's entry becomes `{value, now + ttl*1000}`; every other cache entry, the document and the write log are unchanged (ordinary keys and integer TTLs; see "## Left out") |
| Database.CheckCacheExpiration | index.js:24-33 | exactly the entries whose `expireAt` is set, non-zero and strictly below `now` are evicted; survivors are unchanged; the document is never touched |
| Database.EnableCache | index.js:221-224 | the cache is switched on with its contents and the document side unchanged |
| Database.DisableCache | index.js:226-230 | the cache is switched off and emptied; the document side is unchanged |
| Database.Fetch | index.js:232-238 | with the cache on, the result has the cache's keys and holds each entry's wrapped record; with it off, the result is the document |
| Database.FetchAll | index.js:240-246 | the same read view as `fetch`: wrapped cache records when enabled, the document otherwise |
| Database.All | index.js:248-254 | the same read view as `fetch`: wrapped cache records when enabled, the document otherwise |
| Properties.AddThenSubtract | index.js:98-110 | `subtract` undoes `add` on a number, after two saves; on anything else the pair changes nothing |
| Properties.MathAgreesWithAddSubtract | index.js:120-125 | `math` with `+` is `add` and with `-` is `subtract`, state for state |
| Properties.MathUnknownOperatorSaves | index.js:120-133 | an unrecognised operator keeps the document, but the document is still handed to `saveData` |
| Properties.DeleteUndoesSet | index.js:80-92 | deleting a key just set leaves the document of deleting it directly |
| Properties.SetIdempotent | index.js:80-83 | setting the same value twice leaves the document of setting it once |
| Properties.ResetIdempotent | index.js:262-265 | a second reset changes neither the empty document nor the last document handed to `saveData`, which stays empty |
| Properties.TtlExpiry | index.js:24-39 | an entry stamped `t0 + ttl*1000` survives every sweep up to that time and is evicted by the first sweep after it, unless the stamp is the falsy 0 (ordinary keys and integer TTLs; see "## Left out") |
| Properties.ExpiredEntryNotRead | index.js:24-33 | with the cache on, an expired key is absent from `fetch` after the sweep |
| Properties.DisabledReadsDocument | index.js:226-254 | after `disableCache`, `fetch`, `fetchAll` and `all` all return the document |
| Properties.ReadsAgree | index.js:232-254 | `fetch`, `fetchAll` and `all` return the same map |
| Properties.Apply | index.js:80-145 | a cache operation leaves the document, the write log and the cipher mode unchanged; every other operation leaves the cache unchanged, and all but the encryption toggles keep the cipher mode; no operation breaks "last saved = document", except a reload that parses some document other than the last saved one |
| Properties.ReplayStaysSynced | index.js:80-145 | once the last document handed to `saveData` is the document, it stays so after any sequence of state-changing operations whose reloads fail or read back the last save |
| Properties.ReloadCanDesync | index.js:41-62 | a reload that parses a document other than the last saved one leaves memory and the last save out of step, so the reload hypothesis of `ReplayStaysSynced` is needed; the example is the default encrypted instance switching encryption off and reading its stale file |
| Properties.ReopenReadsSaved | index.js:41-62 | a fresh instance that loads the document last handed to `saveData` reads every key as the saving instance did; the source reaches this only unencrypted, since an encrypted save never reaches the file and an encrypted load always fails |
| Properties.LoadStaysSyncedIff | index.js:52-62 | from a state in step, a load keeps memory and the last save in step exactly when it fails or reads back the last saved document |
| Properties.ToggleEncryptionStaysSyncedIff | index.js:135-145 | either encryption toggle keeps memory and the last save in step exactly when its reload fails or reads back the last saved document; toggling off then on with failed reloads changes only the flag |
| Properties.CacheOpsLeaveStore | index.js:24-39 | any sequence of cache operations leaves the document and the write log unchanged |
| Properties.StoreOpsLeaveCache | index.js:80-133 | any sequence of document operations leaves the cache and its enabled flag unchanged |
| Properties.ArithmeticGuardScenario | index.js:98-103 | `add("k", 5)` on the string `"x"` changes nothing and saves nothing |
| Properties.PushCoercionScenario | index.js:112-118 | `push("k", 1)` on a string leaves `[1]` |
| Properties.CountScenario | index.js:80-133 | `set("count", 1)` then `math("count", "+", 4)` reads 5, and a fresh instance loading the last written document also reads 5 |
| Properties.CacheRedirectionScenario | index.js:35-39 | with the cache enabled, `fetch` shows the wrapped record `{42, now + 10000}` for `"a"` while the document's `"a"` is unchanged |

## Left out

- Encryption (`encryptData`, `decryptData`, index.js:64-78) is left out. These are wrappers over
  Node's AES-256-CBC, and the cipher is not modelled. Its effect on loading is the `parsed`
  outcome passed to `Load`.
- Loading under encryption is affected by the same gap. As written, index.js:54-56 hands the
  raw file text to `decryptData`, and `data.iv` on a string is `undefined`. That load throws
  and leaves the document unchanged, which is the model's `parsed = None` case.
  `CountScenario` therefore uses unencrypted mode.
- Saving under encryption never persists the document. index.js:44-45 passes the envelope
  object, not text, to `writeFileSync`. Current Node rejects it, and older Node writes
  `[object Object]`. The catch at index.js:47-48 swallows the error. Encryption is the
  constructor's default (`encrypt = true`, index.js:6), so by default no save reaches the file.
  The write log records only that `saveData` was handed the document. `Database.New` takes the
  flag as an explicit argument and has no default.
- File I/O is not modelled: `saveData`'s write, `loadData`'s read and `backup` (index.js:256-260).
  A missing file is a failed load: the document stays as it was and nothing is written.
- The one-second `setInterval` timer (index.js:19-21) is not modelled. A tick is one call of
  `CheckCacheExpiration` (or `SweepAt` in a replayed sequence) with the clock reading.
- `cacheTTL = 60` (index.js:16) is left out. It is assigned and never read.
- The MongoDB connector and row methods (index.js:147-219, 267-315) are left out. They are
  asynchronous pass-throughs to an external driver.
- `console.log` and `console.error` lines are left out.
- Database.Math: `/` is the abstract `divide` parameter. JavaScript's double division, which can
  yield fractions, `Infinity` or `NaN`, is not modelled. The contract promises only that the value
  stays a number and a save happens.
- Database.Add: numbers are unbounded integers, not IEEE doubles, so the rounding of large or
  fractional sums is not modelled. The same holds for `Subtract`, `Math` and `SetCacheWithTTL`'s
  `now + ttl*1000`.
- Database.Set: the key `"__proto__"` is modelled as an ordinary key. In the source,
  `this.data["__proto__"] = value` (index.js:81) calls the prototype setter and creates no own key.
  `set("__proto__", {"a": 1})` makes `get("a")` return 1 and `has("a")` true, and `JSON.stringify`
  (index.js:43) leaves it out of the save. `set("__proto__", 5)` is ignored, and
  `push("__proto__", 1)` (index.js:113-116) makes the prototype the array `[1]`. The model gives
  `Get(r, "__proto__") == Some(value)` and leaves every other key unchanged.
- Database.Add: the operand is always a number (`num: int`). The guard at index.js:99, 106 and 121
  checks only the stored value, never `num`. `add("k", "5")` on 10 stores the string `"105"` and
  saves (index.js:100), and so does `math("k", "+", "5")` (index.js:123). An omitted `num` stores
  `NaN`. `Subtract` and `Math` likewise take integer operands only.
- Database.SetCacheWithTTL: the key `"__proto__"` is modelled as an ordinary cache key. In the
  source, `this.cache["__proto__"] = { value, expireAt }` (index.js:37) calls the prototype setter
  and creates no own key. `fetch` (index.js:234) then shows no `"__proto__"` record. The for-in
  sweep (index.js:26-28) visits only the inherited `value` and `expireAt`, which have no
  `.expireAt`, so the record is never evicted. The TTL is also always an integer (`ttlSeconds: int`).
  A missing or non-numeric TTL stamps `Date.now() + NaN` (index.js:36). `NaN` is falsy at
  index.js:28, so that entry never expires. `cacheTTL = 60` is never read, so no default applies.
  The model always stamps an integer and cannot produce such a never-expiring record.
- Properties.TtlExpiry: holds for ordinary keys and integer TTLs only. Under the key
  `"__proto__"` (index.js:37) or with a missing or non-numeric TTL (index.js:36), the source never
  evicts the record, because the test at index.js:28 never fires.
- Database.Has: JavaScript's `in` also sees inherited prototype keys such as `"toString"`.
  The model sees only the document's own keys. For the same reason, `Get` of such a key is `None`.
- Database.Push: stored values are modelled as copies. In the source, `set` stores a reference
  (index.js:81), `get` returns that live reference (index.js:86), and `push` appends in place
  (index.js:116). So an array shared between two keys, or between a key and a cache record,
  changes under every holder at once, and the model's "other keys unchanged" does not cover
  shared values. A cycle (`push("x", get("x"))`) is not modelled either: afterwards every
  `JSON.stringify` in `saveData` throws inside its try (index.js:43, 47-48).
- Properties.StoreOpsLeaveCache: holds only when no cache record shares an array with the
  document; a `push` on a shared array changes the cache record too.
- Properties.ReplayStaysSynced: holds only when no stored value is shared or cyclic. A cyclic
  document makes every later save fail, so the last document handed over stops being written.
- Database.Load: the parse outcome is a document. `JSON.parse` of a file holding `null`, `[1]`
  or `5` makes `this.data` a non-object (index.js:58), after which `get`, `has` and `set` throw.
  That state is not modelled.
- Database.Fetch: `fetch` and `all` return the live object and `fetchAll` a shallow copy.
  Mutations made by the caller through that alias are not modelled; all three return values.

=== FILE: database.dfy ===
/** The `Database` class of Trix: a document handed to `saveData` after
    every successful mutation, and an independent TTL cache that
    can take over the whole-store reads. Every operation is a pure transition
    on an immutable `Db` record. */
module Database {
  import opened Json
  import opened TtlCache

  /** The instance state.
      `writes` is the sequence of documents `saveData` has been asked to
      write, oldest first; its last element is the last document handed to
      `saveData`. In encrypted mode no such call puts the document on disk
      (the envelope object, not text, reaches `writeFileSync`), so this is
      what was handed over, not what the file holds. */
  datatype Db = Db(
    data: Document,
    cache: Cache,
    cacheEnabled: bool,
    encrypt: bool,
    writes: seq<Document>)

  /** The document most recently handed to `saveData`, if any. */
  function LastSaved(db: Db): Option<Document>
  {
    if |db.writes| == 0 then None else Some(db.writes[|db.writes| - 1])
  }

  /** `after` was produced by exactly one `saveData` of its own document. */
  predicate SavedOnce(before: Db, after: Db)
  {
    after.writes == before.writes + [after.data]
  }

  /** `after` was produced without any call to `saveData`. */
  predicate NotSaved(before: Db, after: Db)
  {
    after.writes == before.writes
  }

  /** The last document handed to `saveData` is the in-memory document. */
  predicate Synced(db: Db)
  {
    LastSaved(db) == Some(db.data)
  }

  /** The cache side of the state is identical in both records. */
  predicate SameCache(a: Db, b: Db)
  {
    a.cache == b.cache && a.cacheEnabled == b.cacheEnabled
  }

  /** The document side of the state (document, write log, cipher mode) is identical. */
  predicate SameStore(a: Db, b: Db)
  {
    a.data == b.data && a.writes == b.writes && a.encrypt == b.encrypt
  }

  /** `saveData`: serialise the whole document and write it out. The cipher
      and the file system are not modelled; the write log records the document. */
  function Save(db: Db): (r: Db)
    ensures SavedOnce(db, r) && Synced(r)
    ensures r.data == db.data && SameCache(db, r) && r.encrypt == db.encrypt
  {
    db.(writes := db.writes + [db.data])
  }

  // ---------------------------------------------------------------------------
  // Construction and loading

  /** `loadData`, given the outcome of reading, decrypting and parsing the
      backing file: a parsed document replaces the in-memory one, and any
      failure leaves it as it was. Loading never saves. */
  function Load(db: Db, parsed: Option<Document>): (r: Db)
    ensures parsed.Some? ==> r.data == parsed.value
    ensures parsed.None? ==> r.data == db.data
    ensures NotSaved(db, r) && SameCache(db, r) && r.encrypt == db.encrypt
  {
    match parsed
    case Some(d) => db.(data := d)
    case None => db
  }

  /** The constructor: an empty document, an empty disabled cache, then one load. */
  function New(encrypt: bool, parsed: Option<Document>): (r: Db)
    ensures parsed.Some? ==> r.data == parsed.value
    ensures parsed.None? ==> r.data == map[]
    ensures r.cache == map[] && !r.cacheEnabled && r.encrypt == encrypt
    ensures LastSaved(r) == None
  {
    Load(Db(map[], map[], false, encrypt, []), parsed)
  }

  /** `enableEncryption`: switch the cipher on, then reload under the new mode. */
  function EnableEncryption(db: Db, parsed: Option<Document>): (r: Db)
    ensures r.encrypt
    ensures r.data == (if parsed.Some? then parsed.value else db.data)
    ensures NotSaved(db, r) && SameCache(db, r)
  {
    Load(db.(encrypt := true), parsed)
  }

  /** `disableEncryption`: switch the cipher off, then reload under the new mode. */
  function DisableEncryption(db: Db, parsed: Option<Document>): (r: Db)
    ensures !r.encrypt
    ensures r.data == (if parsed.Some? then parsed.value else db.data)
    ensures NotSaved(db, r) && SameCache(db, r)
  {
    Load(db.(encrypt := false), parsed)
  }

  // ---------------------------------------------------------------------------
  // Plain document operations

  /** `get`: the stored value, or `undefined` for an absent key. */
  function Get(db: Db, key: string): (r: Option<Value>)
    ensures r.Some? <==> key in db.data
    ensures r.Some? ==> r.value == db.data[key]
  {
    if key in db.data then Some(db.data[key]) else None
  }

  /** `has`: whether `get` would find a value. */
  function Has(db: Db, key: string): (r: bool)
    ensures r <==> Get(db, key).Some?
  {
    key in db.data
  }

  /** `set`: store the value under the key and write through. */
  function Set(db: Db, key: string, value: Value): (r: Db)
    ensures Get(r, key) == Some(value) && Has(r, key)
    ensures forall k :: k != key ==> Get(r, k) == Get(db, k)
    ensures SavedOnce(db, r) && Synced(r) && SameCache(db, r) && r.encrypt == db.encrypt
  {
    Save(db.(data := db.data[key := value]))
  }

  /** `delete`: drop the key if present, and write through in every case. */
  function Delete(db: Db, key: string): (r: Db)
    ensures !Has(r, key)
    ensures forall k :: k != key ==> Get(r, k) == Get(db, k)
    ensures !Has(db, key) ==> r.data == db.data
    ensures SavedOnce(db, r) && Synced(r) && SameCache(db, r) && r.encrypt == db.encrypt
  {
    Save(db.(data := db.data - {key}))
  }

  /** `typeof this.data[key] === 'number'`. */
  predicate IsNumberAt(db: Db, key: string)
  {
    key in db.data && db.data[key].Num?
  }

  /** Replace the number under `key` by `result` and write through. */
  function UpdateNumber(db: Db, key: string, result: int): (r: Db)
    requires IsNumberAt(db, key)
    ensures Get(r, key) == Some(Num(result))
    ensures forall k :: k != key ==> Get(r, k) == Get(db, k)
    ensures SavedOnce(db, r) && SameCache(db, r) && r.encrypt == db.encrypt
  {
    Save(db.(data := db.data[key := Num(result)]))
  }

  /** `add`: only a number is incremented (and then saved); anything else,
      including an absent key, leaves the whole state untouched. */
  function Add(db: Db, key: string, num: int): (r: Db)
    ensures !IsNumberAt(db, key) ==> r == db
    ensures IsNumberAt(db, key) ==>
      && Get(r, key) == Some(Num(db.data[key].n + num))
      && (forall k :: k != key ==> Get(r, k) == Get(db, k))
      && SavedOnce(db, r) && SameCache(db, r) && r.encrypt == db.encrypt
  {
    if IsNumberAt(db, key) then UpdateNumber(db, key, db.data[key].n + num) else db
  }

  /** `subtract`: as `add`, decrementing. */
  function Subtract(db: Db, key: string, num: int): (r: Db)
    ensures !IsNumberAt(db, key) ==> r == db
    ensures IsNumberAt(db, key) ==>
      && Get(r, key) == Some(Num(db.data[key].n - num))
      && (forall k :: k != key ==> Get(r, k) == Get(db, k))
      && SavedOnce(db, r) && SameCache(db, r) && r.encrypt == db.encrypt
  {
    if IsNumberAt(db, key) then UpdateNumber(db, key, db.data[key].n - num) else db
  }

  /** `math`: the same number guard as `add`; on a number, `+`, `-`, `*` and
      `/` update it and any other operator leaves it, but a save happens
      either way. `divide` stands for floating-point division, which is not
      modelled beyond "the result is a number". */
  function Math(db: Db, key: string, operator: string, num: int, divide: (int, int) -> int): (r: Db)
    ensures !IsNumberAt(db, key) ==> r == db
    ensures IsNumberAt(db, key) ==>
      && (forall k :: k != key ==> Get(r, k) == Get(db, k))
      && SavedOnce(db, r) && SameCache(db, r) && r.encrypt == db.encrypt
    ensures IsNumberAt(db, key) ==>
      var x := db.data[key].n;
      && (operator == "+" ==> Get(r, key) == Some(Num(x + num)))
      && (operator == "-" ==> Get(r, key) == Some(Num(x - num)))
      && (operator == "*" ==> Get(r, key) == Some(Num(x * num)))
      && (operator == "/" ==> Get(r, key) == Some(Num(divide(x, num))))
      && (operator !in {"+", "-", "*", "/"} ==> Get(r, key) == Get(db, key))
  {
    if IsNumberAt(db, key) then
      var x := db.data[key].n;
      var result :=
        if operator == "+" then x + num
        else if operator == "-" then x - num
        else if operator == "*" then x * num
        else if operator == "/" then divide(x, num)
        else x;
      UpdateNumber(db, key, result)
    else
      db
  }

  /** `Array.isArray(this.data[key])`. */
  predicate IsArrayAt(db: Db, key: string)
  {
    key in db.data && db.data[key].Arr?
  }

  /** `push`: append to an existing array; any other prior value (or none)
      is replaced by a fresh array holding just the item. Always saves. */
  function Push(db: Db, key: string, item: Value): (r: Db)
    ensures IsArrayAt(db, key) ==> Get(r, key) == Some(Arr(db.data[key].items + [item]))
    ensures !IsArrayAt(db, key) ==> Get(r, key) == Some(Arr([item]))
    ensures forall k :: k != key ==> Get(r, k) == Get(db, k)
    ensures SavedOnce(db, r) && Synced(r) && SameCache(db, r) && r.encrypt == db.encrypt
  {
    var items := if IsArrayAt(db, key) then db.data[key].items + [item] else [item];
    Save(db.(data := db.data[key := Arr(items)]))
  }

  /** `reset`: empty the document and write the empty document through. */
  function Reset(db: Db): (r: Db)
    ensures forall k :: !Has(r, k)
    ensures SavedOnce(db, r) && LastSaved(r) == Some(map[])
    ensures SameCache(db, r) && r.encrypt == db.encrypt
  {
    Save(db.(data := map[]))
  }

  // ---------------------------------------------------------------------------
  // The TTL cache

  /** `setCacheWithTTL` at time `now`: stamp the entry with `now + ttl*1000`.
      Only this key of the cache changes; the document is not touched and
      nothing is saved. */
  function SetCacheWithTTL(db: Db, key: string, value: Value, ttlSeconds: int, now: int): (r: Db)
    ensures key in r.cache && r.cache[key] == Entry(value, Some(ExpiryTime(now, ttlSeconds)))
    ensures r.cache.Keys == db.cache.Keys + {key}
    ensures forall k :: k in db.cache && k != key ==> r.cache[k] == db.cache[k]
    ensures SameStore(db, r) && r.cacheEnabled == db.cacheEnabled
  {
    db.(cache := db.cache[key := Entry(value, Some(ExpiryTime(now, ttlSeconds)))])
  }

  /** `checkCacheExpiration` with the clock reading passed in: exactly the
      entries with a truthy `expireAt` strictly before `now` are evicted. */
  method CheckCacheExpiration(db: Db, now: int) returns (r: Db)
    ensures forall k :: k in r.cache <==> k in db.cache && !Expired(db.cache[k], now)
    ensures forall k :: k in r.cache ==> r.cache[k] == db.cache[k]
    ensures r.cache == Expire(db.cache, now)
    ensures SameStore(db, r) && r.cacheEnabled == db.cacheEnabled
  {
    var swept := SweepExpired(db.cache, now);
    r := db.(cache := swept);
  }

  /** `enableCache`: reads go to the cache from now on. */
  function EnableCache(db: Db): (r: Db)
    ensures r.cacheEnabled && r.cache == db.cache && SameStore(db, r)
  {
    db.(cacheEnabled := true)
  }

  /** `disableCache`: reads go back to the document, and every cache entry is dropped. */
  function DisableCache(db: Db): (r: Db)
    ensures !r.cacheEnabled && r.cache == map[] && SameStore(db, r)
  {
    db.(cacheEnabled := false, cache := map[])
  }

  /** What a whole-store read returns: with the cache on, one wrapped
      `{ value, expireAt }` record per cache entry; otherwise the document. */
  predicate ReadView(db: Db, r: Document)
  {
    && (db.cacheEnabled ==>
          r.Keys == db.cache.Keys && forall k :: k in r ==> r[k] == Wrap(db.cache[k]))
    && (!db.cacheEnabled ==> r == db.data)
  }

  /** `fetch`. */
  function Fetch(db: Db): (r: Document)
    ensures ReadView(db, r)
  {
    if db.cacheEnabled then View(db.cache) else db.data
  }

  /** `fetchAll`: a shallow copy, which as a value is the same map as `fetch`. */
  function FetchAll(db: Db): (r: Document)
    ensures ReadView(db, r)
  {
    Fetch(db)
  }

  /** `all`: the same read as `fetch`. */
  function All(db: Db): (r: Document)
    ensures ReadView(db, r)
  {
    Fetch(db)
  }
}

=== FILE: json.dfy ===
/** The values a Trix document holds: JSON-shaped data, plus the Option used
    wherever JavaScript would answer `undefined`. */
module Json {

  /** `None` stands for JavaScript's `undefined` (an absent key or property). */
  datatype Option<+T> = None | Some(value: T)

  /** A JSON value. JavaScript numbers are modelled as mathematical integers. */
  datatype Value =
    | Null
    | Bool(b: bool)
    | Num(n: int)
    | Str(s: string)
    | Arr(items: seq<Value>)
    | Obj(fields: map<string, Value>)

  /** The whole store: the object `this.data` that is serialised to the backing file. */
  type Document = map<string, Value>
}

=== FILE: properties.dfy ===
/** Properties that relate several `Database` operations: inverses, agreement
    between operations, idempotence, expiry over time, and the frame and
    hand-over-to-`saveData` invariants of arbitrary operation sequences. */
module Properties {
  import opened Json
  import opened TtlCache
  import opened Database

  // ---------------------------------------------------------------------------
  // Document operations against each other

  /** `subtract` undoes `add` on a number; on anything else both are no-ops. */
  lemma AddThenSubtract(db: Db, key: string, num: int)
    ensures Subtract(Add(db, key, num), key, num).data == db.data
    ensures IsNumberAt(db, key) ==> |Subtract(Add(db, key, num), key, num).writes| == |db.writes| + 2
    ensures !IsNumberAt(db, key) ==> Subtract(Add(db, key, num), key, num) == db
  {
  }

  /** `math` with `+` is `add`, and with `-` is `subtract`. */
  lemma MathAgreesWithAddSubtract(db: Db, key: string, num: int, divide: (int, int) -> int)
    ensures Math(db, key, "+", num, divide) == Add(db, key, num)
    ensures Math(db, key, "-", num, divide) == Subtract(db, key, num)
  {
  }

  /** A `math` operator outside `+ - * /` keeps the document but still saves. */
  lemma MathUnknownOperatorSaves(db: Db, key: string, operator: string, num: int, divide: (int, int) -> int)
    requires IsNumberAt(db, key)
    requires operator !in {"+", "-", "*", "/"}
    ensures Math(db, key, operator, num, divide).data == db.data
    ensures LastSaved(Math(db, key, operator, num, divide)) == Some(db.data)
  {
  }

  /** Deleting a key just set leaves the same document as deleting it at once. */
  lemma DeleteUndoesSet(db: Db, key: string, value: Value)
    ensures Delete(Set(db, key, value), key).data == Delete(db, key).data
  {
  }

  /** Setting the same value twice leaves the document of setting it once. */
  lemma SetIdempotent(db: Db, key: string, value: Value)
    ensures Set(Set(db, key, value), key, value).data == Set(db, key, value).data
  {
  }

  /** A second `reset` changes neither the document nor the last document handed to `saveData`. */
  lemma ResetIdempotent(db: Db)
    ensures Reset(Reset(db)).data == Reset(db).data == map[]
    ensures LastSaved(Reset(Reset(db))) == LastSaved(Reset(db)) == Some(map[])
    ensures forall k :: !Has(Reset(Reset(db)), k)
  {
  }

  // ---------------------------------------------------------------------------
  // The cache over time

  /** An entry set with a TTL of `ttlSeconds` at time `t0` survives every
      sweep up to and including its expiry time, and the first sweep strictly
      after it removes it (unless the stamp came out as the falsy time 0).
      The document and the write log are never involved. */
  lemma TtlExpiry(db: Db, key: string, value: Value, ttlSeconds: int, t0: int, now: int)
    ensures var r := SetCacheWithTTL(db, key, value, ttlSeconds, t0);
            var deadline := ExpiryTime(t0, ttlSeconds);
            && (now <= deadline ==> key in Expire(r.cache, now) && Expire(r.cache, now)[key].value == value)
            && (now > deadline && deadline != 0 ==> key !in Expire(r.cache, now))
            && (deadline == 0 ==> key in Expire(r.cache, now))
  {
  }

  /** Once the cache is enabled, an expired entry is no longer among the
      records a read hands out after the sweep. */
  lemma ExpiredEntryNotRead(db: Db, key: string, now: int)
    requires db.cacheEnabled && key in db.cache && Expired(db.cache[key], now)
    ensures key !in Fetch(db.(cache := Expire(db.cache, now)))
  {
  }

  /** With the cache off, every whole-store read is the document. */
  lemma DisabledReadsDocument(db: Db)
    ensures Fetch(DisableCache(db)) == FetchAll(DisableCache(db)) == All(DisableCache(db)) == db.data
  {
  }

  /** The three whole-store reads agree on every state. */
  lemma ReadsAgree(db: Db)
    ensures Fetch(db) == FetchAll(db) == All(db)
  {
  }

  // ---------------------------------------------------------------------------
  // Arbitrary sequences of operations

  /** One call of a state-changing operation of the local store. `SweepAt`
      is one tick of the expiry timer, taken at the given clock reading; the
      two encryption toggles carry the outcome of their reload. The MongoDB
      methods are not part of the local store. */
  datatype Op =
    | SetOp(key: string, value: Value)
    | DeleteOp(key: string)
    | AddOp(key: string, num: int)
    | SubtractOp(key: string, num: int)
    | MathOp(key: string, operator: string, num: int)
    | PushOp(key: string, item: Value)
    | ResetOp
    | EnableEncryptionOp(parsed: Option<Document>)
    | DisableEncryptionOp(parsed: Option<Document>)
    | SetCacheOp(key: string, value: Value, ttlSeconds: int, now: int)
    | SweepAt(now: int)
    | EnableCacheOp
    | DisableCacheOp

  /** Operations that act on the cache side only. */
  predicate IsCacheOp(op: Op)
  {
    op.SetCacheOp? || op.SweepAt? || op.EnableCacheOp? || op.DisableCacheOp?
  }

  /** Operations that reload the document from the backing file. */
  predicate IsReloadOp(op: Op)
  {
    op.EnableEncryptionOp? || op.DisableEncryptionOp?
  }

  /** A reload outcome that reads back what was last handed to `saveData`,
      or fails and keeps the document. */
  predicate ReadsBack(db: Db, parsed: Option<Document>)
  {
    parsed.None? || parsed == LastSaved(db)
  }

  function Apply(db: Db, op: Op, divide: (int, int) -> int): (r: Db)
    ensures IsCacheOp(op) ==> SameStore(db, r)
    ensures !IsCacheOp(op) ==> SameCache(db, r)
    ensures !IsCacheOp(op) && !IsReloadOp(op) ==> r.encrypt == db.encrypt
    ensures Synced(db) && (IsReloadOp(op) ==> ReadsBack(db, op.parsed)) ==> Synced(r)
  {
    match op
    case SetOp(k, v) => Set(db, k, v)
    case DeleteOp(k) => Delete(db, k)
    case AddOp(k, n) => Add(db, k, n)
    case SubtractOp(k, n) => Subtract(db, k, n)
    case MathOp(k, o, n) => Math(db, k, o, n, divide)
    case PushOp(k, item) => Push(db, k, item)
    case ResetOp => Reset(db)
    case EnableEncryptionOp(parsed) => EnableEncryption(db, parsed)
    case DisableEncryptionOp(parsed) => DisableEncryption(db, parsed)
    case SetCacheOp(k, v, t, now) => SetCacheWithTTL(db, k, v, t, now)
    case SweepAt(now) => db.(cache := Expire(db.cache, now))
    case EnableCacheOp => EnableCache(db)
    case DisableCacheOp => DisableCache(db)
  }

  /** Run the operations in order. */
  function Replay(db: Db, ops: seq<Op>, divide: (int, int) -> int): Db
    decreases |ops|
  {
    if |ops| == 0 then db else Replay(Apply(db, ops[0], divide), ops[1..], divide)
  }

  /** Every reload along the run either fails or reads back the document
      last handed to `saveData` at that point. */
  predicate ReloadsReadBack(db: Db, ops: seq<Op>, divide: (int, int) -> int)
    decreases |ops|
  {
    |ops| == 0 ||
    ((IsReloadOp(ops[0]) ==> ReadsBack(db, ops[0].parsed))
     && ReloadsReadBack(Apply(db, ops[0], divide), ops[1..], divide))
  }

  /** Write-through: once the last document handed to `saveData` is the
      in-memory document, it stays so after any sequence of operations whose
      reloads read back what was saved. */
  lemma {:induction false} ReplayStaysSynced(db: Db, ops: seq<Op>, divide: (int, int) -> int)
    requires Synced(db)
    requires ReloadsReadBack(db, ops, divide)
    ensures Synced(Replay(db, ops, divide))
    decreases |ops|
  {
    if |ops| > 0 {
      ReplayStaysSynced(Apply(db, ops[0], divide), ops[1..], divide);
    }
  }

  /** The reload hypothesis is needed: a reload that parses some other
      document leaves memory out of step with the last save. This happens
      with the default encrypted instance, whose saves never reach the file:
      switching encryption off then reloads the stale unencrypted file. */
  lemma ReloadCanDesync()
    ensures var db := Set(New(true, None), "a", Num(1));
            Synced(db) && !Synced(DisableEncryption(db, Some(map["a" := Num(0)])))
  {
  }

  // ---------------------------------------------------------------------------
  // Saving and loading

  /** A fresh instance that loads the document last handed to `saveData`
      reads every key as the saving instance did. Only the unencrypted
      reopen (`encrypt == false`) is one the source performs: with
      encryption on, the save never reaches the file and the load always
      fails, so there the lemma speaks of the parse outcome alone. */
  lemma ReopenReadsSaved(db: Db, encrypt: bool)
    ensures forall k :: Get(New(encrypt, LastSaved(Save(db))), k) == Get(db, k)
  {
  }

  /** Starting in step, a load keeps memory and the last save in step exactly
      when it fails or reads back the document last saved. */
  lemma LoadStaysSyncedIff(db: Db, parsed: Option<Document>)
    requires Synced(db)
    ensures Synced(Load(db, parsed)) <==> ReadsBack(db, parsed)
  {
  }

  /** Toggling encryption keeps memory and the last save in step exactly
      when its reload fails or reads back the document last saved; either way
      only the flag and (possibly) the document change. */
  lemma ToggleEncryptionStaysSyncedIff(db: Db, parsed: Option<Document>)
    requires Synced(db)
    ensures Synced(EnableEncryption(db, parsed)) <==> ReadsBack(db, parsed)
    ensures Synced(DisableEncryption(db, parsed)) <==> ReadsBack(db, parsed)
    ensures EnableEncryption(DisableEncryption(db, None), None) == db.(encrypt := true)
  {
  }

  /** Cache operations never touch the document, the write log or the cipher mode. */
  lemma {:induction false} CacheOpsLeaveStore(db: Db, ops: seq<Op>, divide: (int, int) -> int)
    requires forall i :: 0 <= i < |ops| ==> IsCacheOp(ops[i])
    ensures SameStore(db, Replay(db, ops, divide))
    decreases |ops|
  {
    if |ops| > 0 {
      CacheOpsLeaveStore(Apply(db, ops[0], divide), ops[1..], divide);
    }
  }

  /** Document operations never touch the cache or its enabled flag. */
  lemma {:induction false} StoreOpsLeaveCache(db: Db, ops: seq<Op>, divide: (int, int) -> int)
    requires forall i :: 0 <= i < |ops| ==> !IsCacheOp(ops[i])
    ensures SameCache(db, Replay(db, ops, divide))
    decreases |ops|
  {
    if |ops| > 0 {
      StoreOpsLeaveCache(Apply(db, ops[0], divide), ops[1..], divide);
    }
  }

  // ---------------------------------------------------------------------------
  // Worked scenarios

  /** `add("k", 5)` on the string `"x"` changes nothing and saves nothing. */
  lemma ArithmeticGuardScenario(db: Db)
    requires Get(db, "k") == Some(Str("x"))
    ensures Add(db, "k", 5) == db
  {
  }

  /** `push("k", 1)` on the string `"not an array"` leaves `[1]`. */
  lemma PushCoercionScenario(db: Db)
    requires Get(db, "k") == Some(Str("not an array"))
    ensures Get(Push(db, "k", Num(1)), "k") == Some(Arr([Num(1)]))
  {
  }

  /** `set("count", 1)`, then `math("count", "+", 4)` gives 5, and a fresh
      instance that loads the last written document also reads 5. */
  lemma CountScenario(parsed: Option<Document>, divide: (int, int) -> int)
    ensures var db := Math(Set(New(false, parsed), "count", Num(1)), "count", "+", 4, divide);
            && Get(db, "count") == Some(Num(5))
            && LastSaved(db).Some?
            && Get(New(false, LastSaved(db)), "count") == Some(Num(5))
  {
  }

  /** With the cache enabled, `fetch` shows the wrapped cache entry while the
      document's own value for the key is unchanged. */
  lemma CacheRedirectionScenario(db: Db, now: int)
    ensures var r := SetCacheWithTTL(EnableCache(db), "a", Num(42), 10, now);
            && "a" in Fetch(r)
            && Unwrap(Fetch(r)["a"]) == Some(Entry(Num(42), Some(ExpiryTime(now, 10))))
            && Get(r, "a") == Get(db, "a")
  {
  }
}

=== FILE: ttl_cache.dfy ===
/** The TTL cache kept beside the document: entries stamped with an expiry
    time in milliseconds, and the sweep that evicts the ones past it. */
module TtlCache {
  import opened Json

  /** `setCacheWithTTL` takes seconds; the clock counts milliseconds. */
  const MillisPerSecond: int := 1000

  /** The cache record `{ value, expireAt }`. */
  datatype Entry = Entry(value: Value, expireAt: Option<int>)

  type Cache = map<string, Entry>

  /** The expiry time for a TTL given in seconds, starting at `now`. */
  function ExpiryTime(now: int, ttlSeconds: int): int
  {
    now + ttlSeconds * MillisPerSecond
  }

  /** The sweep's eviction test: `expireAt` must be truthy (present and not 0)
      and strictly earlier than the current time. */
  predicate Expired(e: Entry, now: int)
  {
    e.expireAt.Some? && e.expireAt.value != 0 && now > e.expireAt.value
  }

  /** Reference definition of the cache left behind by a sweep at time `now`:
      the entries that are not expired, each unchanged. */
  function Expire(c: Cache, now: int): (c': Cache)
    ensures forall k :: k in c' <==> k in c && !Expired(c[k], now)
    ensures forall k :: k in c' ==> c'[k] == c[k]
  {
    map k | k in c && !Expired(c[k], now) :: c[k]
  }

  /** One pass of the sweep: visit every key once and delete the entry in
      place when it has expired. */
  method SweepExpired(c: Cache, now: int) returns (c': Cache)
    ensures c' == Expire(c, now)
  {
    c' := c;
    var todo := c.Keys;
    while todo != {}
      invariant todo <= c.Keys
      invariant c'.Keys <= c.Keys
      invariant forall k :: k in todo ==> k in c'
      invariant forall k :: k in c' ==> c'[k] == c[k]
      invariant forall k :: k in c && k !in todo ==> (k in c' <==> !Expired(c[k], now))
      decreases todo
    {
      var k :| k in todo;
      if Expired(c'[k], now) {
        c' := c' - {k};
      }
      todo := todo - {k};
    }
  }

  /** A second sweep at the same time removes nothing more. */
  lemma ExpireIdempotent(c: Cache, now: int)
    ensures Expire(Expire(c, now), now) == Expire(c, now)
  {
  }

  /** Sweeping at an earlier time and then at a later one leaves exactly
      what a single sweep at the later time leaves: eviction is monotone in time. */
  lemma ExpireLater(c: Cache, earlier: int, later: int)
    requires earlier <= later
    ensures Expire(Expire(c, earlier), later) == Expire(c, later)
  {
  }

  /** The object a cache entry is when a read hands the cache out: the
      record itself, with `expireAt` present exactly when it was set. */
  function Wrap(e: Entry): (v: Value)
    ensures v.Obj? && "value" in v.fields && v.fields["value"] == e.value
    ensures "expireAt" in v.fields <==> e.expireAt.Some?
    ensures e.expireAt.Some? ==> v.fields["expireAt"] == Num(e.expireAt.value)
    ensures v.fields.Keys <= {"value", "expireAt"}
  {
    match e.expireAt
    case Some(t) => Obj(map["value" := e.value, "expireAt" := Num(t)])
    case None => Obj(map["value" := e.value])
  }

  /** Reads a wrapped record back into a cache entry. */
  function Unwrap(v: Value): Option<Entry>
  {
    if v.Obj? && "value" in v.fields then
      var at := if "expireAt" in v.fields && v.fields["expireAt"].Num?
                then Some(v.fields["expireAt"].n) else None;
      Some(Entry(v.fields["value"], at))
    else
      None
  }

  /** Wrapping loses nothing: the record read back is the entry. */
  lemma UnwrapWrap(e: Entry)
    ensures Unwrap(Wrap(e)) == Some(e)
  {
  }

  /** The cache as the map of wrapped records that `fetch` returns. */
  function View(c: Cache): (d: Document)
    ensures d.Keys == c.Keys
    ensures forall k :: k in d ==> d[k] == Wrap(c[k])
    ensures forall k :: k in d ==> Unwrap(d[k]) == Some(c[k])
  {
    map k | k in c :: Wrap(c[k])
  }
}
